=== FILE: README.md ===
# Alice no País de Bolsotaurus — a verified model of the game logic

This is a Dafny model of the game logic in `main.py`, a small top-down
shooter written with pygame. It covers the following parts:

- **The tile-map loader** (`load_hex_map`). A map file holds one map row per
  line. Each row is sixteen whitespace-separated hexadecimal tile numbers. The
  loader splits the lines, converts every token and rejects a row of any other
  width. Splitting follows `str.split()` with no separator: `HexMap.IsSpace`
  lists its separators by code point, as the `str.isspace()` table does.
- **The direction classifier** (`compute_direction`). It maps a velocity to
  one of eight compass octants, or to -1 at rest.
- **The animation group** (`AnimationGroup`). It holds a list of animations and
  the index of the current one. `set_animation` selects by name or raises
  `LookupError`.
- **The player** (`Player`). Every frame `update` moves between the idle (0),
  moving (1) and aiming (3) states. It turns the arrow keys into an
  acceleration, drags the velocity, faces and moves the sprite, turns the aim
  cursor with a per-frame tick counter, and runs down the shot timer.
  `shoot_ifbuttonpressed` decides whether the gun fires, from the shot timer,
  the fire button, the remembered previous button state and the rapid-fire
  switch.
- **The bullet controller** (`BulletController`). It keeps the player's and the
  enemies' live bullets in two lists. It appends new bullets, collects the
  bullets that touch a rectangle and removes given bullets with `list.remove`.

Modules, one file each:

| file | module | models |
|---|---|---|
| `wrappers.dfy` | `Wrappers` | `Option`, `Result`, `Outcome`: a raised exception is an error value |
| `hex_map.dfy` | `HexMap` | `str.split()`, `int(token, 16)`, `load_hex_map` |
| `direction.dfy` | `Direction` | `compute_direction` |
| `animation.dfy` | `Animations` | `AnimationGroup` (class) |
| `bullets.dfy` | `Bullets` | `Bullet`, `BulletController` (classes) |
| `player.dfy` | `Players` | `Player` (class), its per-frame rules |

**Imperative parts.** `load_hex_map`, `set_animation`, the controller's
methods, `update` and `shoot_ifbuttonpressed` change state step by step in the
source, so each one is a Dafny `method` with loops or field updates. Each
method is proved against a specification function whose own properties are
proved as lemmas:

| method | specification |
|---|---|
| `LoadHexMap` | `ParseMap` |
| `SetAnimation` | `FirstIndexOf` |
| `CheckCollisionWith*` | `Filter` |
| `Destroy` | `DestroyAll` |
| `Update` | `NextState`, `AxisAcceleration`, `Drag`, `NextAimCount`, `AimRate`, `NextShotTimer` |
| `ShootIfButtonPressed` | `Fires`, `StoredAfter` |

Bullets are objects, so the bullet lists hold references, and removal is by
identity.

**Errors.** The source signals errors with exceptions. Here they are values:

| source exception | model |
|---|---|
| `ValueError` from `int(token, 16)` | `InvalidLiteral` |
| `RuntimeError` for a row that is not 16 wide | `CorruptRow` |
| `LookupError` from `set_animation` | `Fail` |
| `ValueError` from `list.remove` | `Fail` |

The model keeps the source's order of checks. It also keeps the state that
exists when the exception is raised: bullets that `destroy` removed before a
missing one stay removed.

## Model

| member | source | states |
|---|---|---|
| HexMap.Split | main.py:226 | every token `str.split()` produces is a non-empty run of non-whitespace characters |
| HexMap.SplitKeepsText | main.py:226 | the tokens laid end to end are exactly the line's non-whitespace characters |
| HexMap.SplitTrailingSpace | main.py:223-226 | the newline `readlines` leaves at the end of a line does not change its tokens |
| HexMap.SplitJoin | main.py:226 | tokens written one space apart split back into the same tokens |
| HexMap.SplitSpaced | main.py:226 | the tokens are maximal: words separated by non-empty runs of any separators, with any separators before and after, split back into exactly those words |
| HexMap.DigitValue | main.py:232 | a hexadecimal digit has a value below 16; `DigitChar` and `UpperDigit` pin the value of every lower- and upper-case digit |
| HexMap.UpperDigit | main.py:232 | the upper-case digits A-F read as 10-15 |
| HexMap.HexValue | main.py:232 | the base-16 value of t digits is below 16^t; `HexRoundTrip` and `HexLeadingZero` pin it on every writing |
| HexMap.HexLeadingZero | main.py:232 | a leading zero does not change a token's value, so a zero-padded token such as `0a` reads as its shortest writing does |
| HexMap.DigitChar | main.py:232 | the digit written for a value below 16 reads back as that value |
| HexMap.HexDigits | main.py:232 | the hexadecimal writing of any number is a valid literal |
| HexMap.HexRoundTrip | main.py:232 | reading back the hexadecimal writing of n gives n |
| HexMap.ParseToken | main.py:232 | `int(tile, 16)` succeeds iff the token is a hexadecimal literal, with a value below 16 to the power of its length; otherwise it raises the ValueError naming the token |
| HexMap.ParseTokenRoundTrip | main.py:232 | converting the hexadecimal writing of any n, as a map file holds it, gives n |
| HexMap.ParseTokens | main.py:231-232 | converting a line succeeds iff every token is a literal; on success each value is the base-16 value of its token; otherwise the error names the first bad token |
| HexMap.ParseRow | main.py:229-234 | a row succeeds iff it has 16 literal tokens; the width error is raised exactly when all tokens convert but the count is not 16 |
| HexMap.ParseMap | main.py:227-236 | loading succeeds iff every line is a valid row; the map has one row per line, in order, each the parsed row of its line |
| HexMap.ParseMapEntries | main.py:225-235 | on success every row is 16 wide and entry (i, j) is the base-16 value of token j of line i |
| HexMap.ParseTokensPrefixFailure | main.py:231-232 | once a token fails, the tokens after it do not change the error |
| HexMap.ParseMapPrefixFailure | main.py:228-235 | once a line fails, the lines after it do not change the error |
| HexMap.ParseMapFirstError | main.py:228-235 | a failed load reports the error of the first ill-formed line, all lines before it being well formed |
| HexMap.CorruptRowExactly | main.py:233-234 | when all tokens are literals, the RuntimeError is raised iff some line does not have 16 tokens |
| HexMap.ConvertRow | main.py:229-235 | the inner loop computes exactly the row specification, stopping at the first bad token |
| HexMap.LoadHexMap | main.py:220-236 | the two loops compute exactly the map specification: the map or the first line's error |
| Direction.ComputeDirection | main.py:422-440 | the result is in -1..7; it is -1 iff the velocity is (0,0); otherwise the octant's x and y steps have the signs of the components |
| Direction.OctantUnique | main.py:422-440 | the octant whose steps match the velocity's signs is the one returned, so the octant is unique |
| Direction.DirectionScaleInvariant | main.py:422-440 | scaling the velocity by a positive factor keeps the direction |
| Direction.DirectionOpposite | main.py:422-440 | reversing a non-zero velocity adds 4 (mod 8) to the direction |
| Direction.DirectionMirror | main.py:422-440 | mirroring x maps direction d to (8 - d) mod 8 |
| Direction.DirectionCardinal | main.py:422-440 | the direction is even (0 up, 2 right, 4 down, 6 left) iff one component is zero |
| Animations.FirstIndexOf | main.py:117-124 | the result is the first index whose name matches, and None iff no name matches |
| Animations.FirstIndexOfAppend | main.py:114-124 | appending an animation never changes what an existing name selects |
| Animations.AnimationGroup.constructor | main.py:110-112 | the group starts with no animations and index 0 |
| Animations.AnimationGroup.AddAnimation | main.py:114-115 | the animation is appended and the current index is kept |
| Animations.AnimationGroup.SetAnimation | main.py:117-128 | passes iff a name matches, then selects the first match; otherwise fails with the LookupError message and leaves the index unchanged |
| Bullets.Bullet.constructor | main.py:19-29 | a bullet keeps its origin, direction, speed, damage and side |
| Bullets.Filter | main.py:392-404 | the filtered list is no longer than the list |
| Bullets.FilterMembers | main.py:392-404 | the filtered list holds exactly the bullets that pass the test, and stays free of duplicates |
| Bullets.FilterAppend | main.py:394-396 | a bullet scanned last is appended iff it passes the test |
| Bullets.IndexOf | main.py:409 | the index of the first occurrence of a bullet in a list |
| Bullets.RemoveFirst | main.py:409 | `list.remove` shortens the list by one and takes one occurrence of the bullet out of its contents |
| Bullets.RemoveFirstNoDuplicates | main.py:409-411 | removal from a list without duplicates keeps it so, removes the bullet entirely and keeps every other bullet |
| Bullets.Take | main.py:408-411 | a bullet is taken from the list of its side iff that list holds it; the other list is untouched |
| Bullets.TakeRestore | main.py:408-411 | taking a bullet removes one occurrence of it and nothing else |
| Bullets.DestroyAll | main.py:406-411 | `destroy` never adds bullets; one that does not raise removes one bullet per entry; one that raises does so with the `list.remove` ValueError text (the exact removals are in `DestroyRemovesExactly`, `DestroyEnemyHits` and `DestroyPlayerHits`, and what a raising destroy leaves in `DestroyAppend`) |
| Bullets.DestroyAppend | main.py:406-411 | destroy works through its argument in order: the bullets after a removal that raises are never looked at, and the removals before it stay done |
| Bullets.DestroyRemovesExactly | main.py:406-411 | a destroy that does not raise removes exactly the given bullets, one occurrence each |
| Bullets.DestroyKeepsValid | main.py:406-411 | destroy keeps each list duplicate-free and of its own side |
| Bullets.DestroyEnemyHits | main.py:392-411 | destroying the enemy bullets that hit a rectangle never raises and leaves the misses, in order |
| Bullets.DestroyPlayerHits | main.py:399-411 | the same for the player's bullets |
| Bullets.BulletController.constructor | main.py:371-373 | both lists start empty |
| Bullets.BulletController.PlayerShoot | main.py:375-376 | a fresh player bullet with the given data is appended, the rest unchanged |
| Bullets.BulletController.EnemyShoot | main.py:378-379 | a fresh enemy bullet with the given data is appended, the rest unchanged |
| Bullets.BulletController.CheckCollisionWithEnemyBullets | main.py:392-397 | returns the enemy bullets that hit, in list order |
| Bullets.BulletController.CheckCollisionWithPlayerBullets | main.py:399-404 | returns the player bullets that hit, in list order |
| Bullets.BulletController.Destroy | main.py:406-411 | the lists and outcome are those of the destroy specification; the lists stay valid |
| Players.NextState | main.py:260-270 | from idle, moving or aiming the state stays among them and is aiming iff Z is held; it is moving iff it was idle or moving, the velocity was non-zero and Z is not held; other states do not change |
| Players.AimingWhileHeld | main.py:264-268 | holding Z from idle, moving or aiming keeps the player aiming every frame |
| Players.AxisAcceleration | main.py:271-289 | an axis accelerates by -80, 0 or +80; negative iff only UP/LEFT is held, positive iff only DOWN/RIGHT is held |
| Players.AxisAccelerationSwap | main.py:272-289 | swapping the two keys of an axis negates its acceleration |
| Players.Drag | main.py:291-295 | the new component is 0 exactly when (v + a) / 2 is below 0.1 in magnitude, and (v + a) / 2 otherwise; it stays within the top speed 80 |
| Players.DragSlowsDown | main.py:291-295 | without acceleration a component at least halves each frame and never changes sign |
| Players.DragTopSpeed | main.py:291-295 | at top speed with the key held, the speed stays 80 |
| Players.DragAccelerates | main.py:291-295 | below top speed with the key held, speed rises and stays below 80 |
| Players.NextAimCount | main.py:316-332 | it is negative iff only LEFT is held and positive iff only RIGHT is held; the guards keep a counter that starts within [-31, 31] there |
| Players.AimCountMirror | main.py:316-332 | LEFT and RIGHT act on the counter as mirror images |
| Players.AimRate | main.py:316-328 | the cursor turns counter-clockwise iff only LEFT is held and clockwise iff only RIGHT is held, at most 505 degrees per second |
| Players.AimRestarts | main.py:318-328 | a count left from turning the other way restarts at zero: the counter becomes -1 (LEFT) or 1 (RIGHT) and the rate is the base 40 degrees per second |
| Players.AimRateRamp | main.py:320-328 | with k steps counted, the rate is 40 + 15k counter-clockwise for LEFT and -(40 + 15k) clockwise for RIGHT |
| Players.AimRateMirror | main.py:316-328 | LEFT and RIGHT turn at mirrored rates |
| Players.HoldLeftRamp | main.py:316-323 | holding LEFT for n frames from 0 gives the counter -min(n, 31) and the rate 40 + 15 min(n, 31) |
| Players.Fires | main.py:357-366 | in terms of the remembered button: a shot leaves it down; without rapid fire a call fires exactly when the memory goes from up to down; in rapid fire exactly when a call that finds the timer run down leaves it down (over runs of calls: `RapidFiresWhenReady`, `SingleFireNoMore`, `HeldButtonFiresOnce`) |
| Players.StoredAfter | main.py:357-368 | the button memory after one call; its properties are `MemoryIsLastLook` (over a run of calls) and `NoRefireWhileHeld` (a held button does not fire again) |
| Players.MemoryIsLastLook | main.py:357-368 | after a run of calls the remembered button is the one seen by the last call that found the timer run down, or the initial memory if every call found it running |
| Players.NoRefireWhileHeld | main.py:357-368 | without rapid fire, after a call that looked at the button a call with the button still down does not fire |
| Players.Shots | main.py:357-368 | the shots of a run of calls are the calls that `Fires` allows, the memory passed on by `StoredAfter`; there are no more shots than calls (that one call appends one bullet is `ShootIfButtonPressed`'s length clause) |
| Players.RapidFiresWhenReady | main.py:357-368 | in rapid fire, every call with the timer run down and the button down fires |
| Players.SingleFireNoMore | main.py:357-368 | without rapid fire, a run of calls fires at most as often as in rapid fire |
| Players.HeldButtonFiresOnce | main.py:357-368 | without rapid fire, holding the button fires at most once, and never if it was already down |
| Players.NextShotTimer | main.py:339-343 | a frame never raises the timer; a running timer runs out exactly on the frame whose length reaches the time left; a run-out timer is reset to 0 |
| Players.TimerStaysDown | main.py:339-343 | a run-down timer stays run down |
| Players.Cooldown | main.py:339-367 | with non-negative frame times, the gun is ready again iff the frames add up to at least the time left, so shots are at least 0.2 s apart |
| Players.Player.constructor | main.py:240-255 | the player starts idle and at rest, aims up (90 degrees), with the timer at 0, the button up and rapid fire on |
| Players.Player.Update | main.py:257-343 | keeps the frame invariant; the new state, acceleration, velocity, facing, position, aim counter and aim angle, cursor position and shot timer are those of the per-frame rules |
| Players.Player.ChangeState | main.py:260-270 | the state follows `NextState`; acceleration is zeroed exactly when aiming is entered |
| Players.Player.Steer | main.py:271-289 | in states 0, 1, 2 and 7 both axes follow `AxisAcceleration`; in other states the acceleration is unchanged |
| Players.Player.Move | main.py:291-309 | the velocity is dragged, the facing follows `ComputeDirection` unless it is -1, and the position advances by velocity times frame time |
| Players.Player.TurnAim | main.py:313-334 | while aiming the counter follows `NextAimCount` and the angle turns by `AimRate` times frame time; otherwise both are unchanged; the cursor shows iff aiming |
| Players.Player.PlaceCursor | main.py:336 | the cursor sits at the sprite position plus (12, 8) |
| Players.Player.RunDownShotTimer | main.py:339-343 | the timer follows `NextShotTimer` |
| Players.Player.MoveTo | main.py:349-351 | the sprite goes to (x, y) and the cursor to (x + 12, y + 8) |
| Players.Player.ShootIfButtonPressed | main.py:356-368 | fires iff the gating allows it, appending one player bullet from the muzzle (along the aim when aiming, else 90 degrees) at speed 320 and damage 40, and restarting the timer at 0.2; the button state is remembered unless the timer was running |

## Left out

- File access in `load_hex_map` (`os.path.join`, `open`, `readlines`) is not modelled. The input is the list of lines the file yields.
- HexMap.ParseToken accepts only plain hexadecimal digits. Python's `int(token, 16)` also accepts a `0x` prefix, a sign, underscores, surrounding whitespace and Unicode decimal digits from other scripts (a fullwidth `３` reads as 3). A map file that uses them is rejected here.
- Floating point: velocities, positions, angles and the shot timer are exact reals. Rounding, and the loss of precision over many frames, is not modelled.
- Players.Player.Update: the animation side effects are not modelled. These are `play`, `stop`, `set_framerate` and `update_anim`, which depend on the speed magnitude and frame timing, and the per-animation positions. The model keeps a single sprite position and facing row, which every animation shares in the source.
- The aim cursor's direction vector (`update_vector`, with cosine and sine) and its drawing are not modelled.
- The initial sharing of the position list between the aim cursor and the sprite is not modelled. It is gone after the first frame.
- Drawing and rendering are not modelled: `load_png`, `draw`, `draw_all`, `draw_ground` and the main loop.
- Keyboard polling is not modelled. The keys of a frame are an input: `Keys` for `update`, and `fireDown` for the fire button that `shoot_ifbuttonpressed` reads.
- Bullets: sprite rotation, the sprite-centred position, the three hitboxes, flight (`Bullet.update`), `is_outside_screen` and `scroll` are not modelled. Whether a bullet hits a rectangle is the predicate `hits` given to the collision methods.
- `BulletController.update_all` is not modelled. It removes bullets from the list it is iterating over, so which bullets it skips depends on Python's list iteration rather than on a stated rule.
- `Player.scroll`, `Player.draw`, the `AnimationGroup` methods other than `add_animation` and `set_animation`, and `TilemapHandler` are not part of this model.
- The states 2 and 4 to 7 are named by the source but never entered. The model accepts them as given states: states 2 and 7 read the direction keys, and the others keep their acceleration.

=== FILE: animation.dfy ===
/** `AnimationGroup`: the animations of one sprite and the index of the one
    currently shown, selected by name with `set_animation`. Sprite sheets,
    frame timing and drawing are outside the model; an animation is
    represented by its name, the only part of it the group reads. */
module Animations {
  import opened Wrappers

  /** An animation, known to the group by its name. */
  datatype Animation = Animation(name: string)

  /** The message of the LookupError raised for a name no animation has. */
  function NotPresentMessage(name: string): string
  {
    "Error: animation \"" + name + "\" not present in animation list."
  }

  /** The index of the first animation called `name`, if any. */
  function FirstIndexOf(animations: seq<Animation>, name: string): (r: Option<nat>)
    ensures r.Some? ==> r.value < |animations| && animations[r.value].name == name
    ensures r.Some? ==> forall j | 0 <= j < r.value :: animations[j].name != name
    ensures r.None? <==> forall j | 0 <= j < |animations| :: animations[j].name != name
  {
    if animations == [] then None
    else if animations[0].name == name then Some(0)
    else match FirstIndexOf(animations[1..], name)
      case None => None
      case Some(k) => Some(k + 1)
  }

  /** Adding an animation never changes what an existing name selects; it
      only gives a so-far missing name a place. */
  lemma {:induction false} FirstIndexOfAppend(animations: seq<Animation>, a: Animation, name: string)
    ensures FirstIndexOf(animations + [a], name) ==
      if FirstIndexOf(animations, name).Some? then FirstIndexOf(animations, name)
      else if a.name == name then Some(|animations|)
      else None
  {
    if animations != [] {
      assert (animations + [a])[1..] == animations[1..] + [a];
      FirstIndexOfAppend(animations[1..], a, name);
    }
  }

  class AnimationGroup {
    var animations: seq<Animation>
    var currAnimation: nat

    /** The current index names an animation whenever there is one. */
    ghost predicate Valid()
      reads this
    {
      if animations == [] then currAnimation == 0 else currAnimation < |animations|
    }

    constructor ()
      ensures Valid()
      ensures animations == [] && currAnimation == 0
    {
      animations := [];
      currAnimation := 0;
    }

    /** add_animation: append to the list; the current index stays. */
    method AddAnimation(animation: Animation)
      requires Valid()
      modifies this`animations
      ensures Valid()
      ensures animations == old(animations) + [animation]
    {
      animations := animations + [animation];
    }

    /** set_animation: scan the list in order with a counter; the first
        animation whose name matches becomes current, and when none does a
        LookupError is raised and the current index is left as it was. */
    method SetAnimation(name: string) returns (outcome: Outcome<string>)
      requires Valid()
      modifies this`currAnimation
      ensures Valid()
      ensures outcome.Pass? <==> FirstIndexOf(animations, name).Some?
      ensures outcome.Pass? ==> currAnimation == FirstIndexOf(animations, name).value
      ensures outcome.Pass? ==> animations[currAnimation].name == name
      ensures outcome.Fail? ==> outcome.error == NotPresentMessage(name)
      ensures outcome.Fail? ==> currAnimation == old(currAnimation)
    {
      var j := 0;
      while j < |animations|
        invariant 0 <= j <= |animations|
        invariant forall k | 0 <= k < j :: animations[k].name != name
      {
        if animations[j].name == name {
          currAnimation := j;
          return Pass;
        }
        j := j + 1;
      }
      return Fail(NotPresentMessage(name));
    }
  }
}

=== FILE: bullets.dfy ===
/** `BulletController`: the two lists of live bullets, one fired by the player
    and one by enemies. Bullets are objects: the lists hold references, and
    removing a bullet removes that object, not an equal-looking one. A
    bullet's flight, hitboxes and sprite are outside the model; whether a
    bullet touches a rectangle is given as a predicate on bullets. */
module Bullets {
  import opened Wrappers

  /** The message of the ValueError list.remove raises for a missing element. */
  const ListRemoveMessage: string := "list.remove(x): x not in list"

  class Bullet {
    const origin: (real, real)
    const direction: real  // degrees, counter-clockwise from the positive x axis
    const speed: int
    const damage: int
    const isEnemy: bool

    constructor (origin: (real, real), direction: real, speed: int, damage: int, isEnemy: bool)
      ensures this.origin == origin && this.direction == direction
      ensures this.speed == speed && this.damage == damage && this.isEnemy == isEnemy
    {
      this.origin := origin;
      this.direction := direction;
      this.speed := speed;
      this.damage := damage;
      this.isEnemy := isEnemy;
    }
  }

  predicate NoDuplicates(s: seq<Bullet>)
  {
    forall i, j | 0 <= i < j < |s| :: s[i] != s[j]
  }

  /** The bullets b of `s` with p(b) == keep, in their order in `s`. */
  function Filter(s: seq<Bullet>, p: Bullet -> bool, keep: bool): (r: seq<Bullet>)
    ensures |r| <= |s|
  {
    if s == [] then [] else (if p(s[0]) == keep then [s[0]] else []) + Filter(s[1..], p, keep)
  }

  /** Filter keeps exactly the bullets that satisfy the test, and keeps a
      list free of duplicates. */
  lemma {:induction false} FilterMembers(s: seq<Bullet>, p: Bullet -> bool, keep: bool)
    ensures forall i | 0 <= i < |Filter(s, p, keep)| ::
      Filter(s, p, keep)[i] in s && p(Filter(s, p, keep)[i]) == keep
    ensures forall i | 0 <= i < |s| && p(s[i]) == keep :: s[i] in Filter(s, p, keep)
    ensures NoDuplicates(s) ==> NoDuplicates(Filter(s, p, keep))
  {
    if s != [] {
      var r, rest := Filter(s, p, keep), Filter(s[1..], p, keep);
      FilterMembers(s[1..], p, keep);
      assert forall i | 1 <= i < |s| :: s[i] == s[1..][i - 1];
      assert NoDuplicates(s) ==> s[0] !in s[1..];
      if p(s[0]) == keep {
        assert r == [s[0]] + rest;
        assert forall i | 1 <= i < |r| :: r[i] == rest[i - 1];
      } else {
        assert r == rest;
      }
    }
  }

  lemma {:induction false} FilterAppend(s: seq<Bullet>, b: Bullet, p: Bullet -> bool, keep: bool)
    ensures Filter(s + [b], p, keep) == Filter(s, p, keep) + (if p(b) == keep then [b] else [])
  {
    if s != [] {
      var head := if p(s[0]) == keep then [s[0]] else [];
      var last := if p(b) == keep then [b] else [];
      assert (s + [b])[0] == s[0] && (s + [b])[1..] == s[1..] + [b];
      FilterAppend(s[1..], b, p, keep);
      ConcatAssoc(head, Filter(s[1..], p, keep), last);
    }
  }

  /** The position of the first occurrence of x in s. */
  function IndexOf(s: seq<Bullet>, x: Bullet): (k: nat)
    requires x in s
    ensures k < |s| && s[k] == x && x !in s[..k]
  {
    if s[0] == x then 0
    else
      var k := 1 + IndexOf(s[1..], x);
      assert s[..k] == [s[0]] + s[1..][..k - 1];
      k
  }

  /** list.remove(x): the list without the first occurrence of x. */
  function RemoveFirst(s: seq<Bullet>, x: Bullet): (r: seq<Bullet>)
    requires x in s
    ensures |r| == |s| - 1
    ensures multiset(r) == multiset(s) - multiset{x}
  {
    var k := IndexOf(s, x);
    assert s == s[..k] + [x] + s[k + 1..];
    s[..k] + s[k + 1..]
  }

  lemma {:induction false} IndexOfAfter(a: seq<Bullet>, x: Bullet, b: seq<Bullet>)
    requires x !in a
    ensures IndexOf(a + [x] + b, x) == |a|
  {
    if a != [] {
      assert (a + [x] + b)[1..] == a[1..] + [x] + b;
      IndexOfAfter(a[1..], x, b);
    }
  }

  lemma RemoveFirstAt(a: seq<Bullet>, x: Bullet, b: seq<Bullet>)
    requires x !in a
    ensures RemoveFirst(a + [x] + b, x) == a + b
  {
    var s := a + [x] + b;
    IndexOfAfter(a, x, b);
    assert s[..|a|] == a && s[|a| + 1..] == b;
  }

  /** The element at each position of the list after the removal. */
  lemma RemoveFirstShift(s: seq<Bullet>, x: Bullet)
    requires x in s
    ensures var k, r := IndexOf(s, x), RemoveFirst(s, x);
      (forall i | 0 <= i < k :: r[i] == s[i]) && (forall i | k <= i < |r| :: r[i] == s[i + 1])
  {
    var k := IndexOf(s, x);
    assert RemoveFirst(s, x) == s[..k] + s[k + 1..];
  }

  /** Removing an element keeps a list free of duplicates, and removes that
      element altogether when it occurred once. */
  lemma RemoveFirstNoDuplicates(s: seq<Bullet>, x: Bullet)
    requires x in s && NoDuplicates(s)
    ensures NoDuplicates(RemoveFirst(s, x))
    ensures x !in RemoveFirst(s, x)
    ensures forall y | y != x :: y in RemoveFirst(s, x) <==> y in s
  {
    var k := IndexOf(s, x);
    var r := RemoveFirst(s, x);
    RemoveFirstShift(s, x);
    forall i, j | 0 <= i < j < |r| ensures r[i] != r[j] {
      assert r[i] == s[if i < k then i else i + 1];
      assert r[j] == s[if j < k then j else j + 1];
    }
    forall y | y in r ensures y != x && y in s {
      var i :| 0 <= i < |r| && r[i] == y;
      assert r[i] == s[if i < k then i else i + 1];
    }
    forall y | y != x && y in s ensures y in r {
      var i :| 0 <= i < |s| && s[i] == y;
      if i < k { assert r[i] == y; } else { assert r[i - 1] == y; }
    }
  }

  lemma NoDuplicatesSplit(a: seq<Bullet>, z: Bullet, b: seq<Bullet>)
    requires NoDuplicates(a + [z] + b)
    ensures NoDuplicates(a + b) && z !in a
  {
    var s := a + [z] + b;
    forall i, j | 0 <= i < j < |a + b| ensures (a + b)[i] != (a + b)[j] {
      var i' := if i < |a| then i else i + 1;
      var j' := if j < |a| then j else j + 1;
      assert (a + b)[i] == s[i'] && (a + b)[j] == s[j'];
    }
    assert s[|a|] == z;
    assert forall i | 0 <= i < |a| :: s[i] == a[i];
  }

  /** The two bullet lists of a controller. */
  datatype Lists = Lists(player: seq<Bullet>, enemy: seq<Bullet>)

  /** Each list holds distinct bullets of its own kind. */
  predicate ValidLists(lists: Lists)
  {
    && NoDuplicates(lists.player) && NoDuplicates(lists.enemy)
    && (forall i | 0 <= i < |lists.player| :: !lists.player[i].isEnemy)
    && (forall i | 0 <= i < |lists.enemy| :: lists.enemy[i].isEnemy)
  }

  /** What destroy leaves behind: the lists, and whether it raised. */
  datatype Removal = Removal(lists: Lists, outcome: Outcome<string>)

  /** The removal of one bullet from the list of its kind, or None when that
      list does not hold it (list.remove raises). */
  function Take(lists: Lists, b: Bullet): (r: Option<Lists>)
    ensures r.Some? <==> b in (if b.isEnemy then lists.enemy else lists.player)
    ensures r.Some? && b.isEnemy ==> r.value.player == lists.player
    ensures r.Some? && !b.isEnemy ==> r.value.enemy == lists.enemy
    ensures r.Some? ==> |r.value.player| + |r.value.enemy| + 1 == |lists.player| + |lists.enemy|
  {
    if b.isEnemy then
      if b in lists.enemy then Some(Lists(lists.player, RemoveFirst(lists.enemy, b))) else None
    else
      if b in lists.player then Some(Lists(RemoveFirst(lists.player, b), lists.enemy)) else None
  }

  /** destroy: remove the bullets in order, each from the list of its kind;
      a bullet missing from that list raises ValueError, and the removals
      made before it stay done. */
  function DestroyAll(lists: Lists, bullets: seq<Bullet>): (r: Removal)
    ensures |r.lists.player| + |r.lists.enemy| <= |lists.player| + |lists.enemy|
    ensures r.outcome.Pass? ==> |r.lists.player| + |r.lists.enemy| + |bullets| == |lists.player| + |lists.enemy|
    ensures r.outcome.Fail? ==> r.outcome.error == ListRemoveMessage
    decreases |bullets|
  {
    if bullets == [] then Removal(lists, Pass)
    else match Take(lists, bullets[0])
      case None => Removal(lists, Fail(ListRemoveMessage))
      case Some(next) => DestroyAll(next, bullets[1..])
  }

  /** destroy works through its argument in order: the bullets after a
      removal that raises are never looked at, and the removals before it
      stay done. */
  lemma {:induction false} DestroyAppend(lists: Lists, a: seq<Bullet>, b: seq<Bullet>)
    ensures DestroyAll(lists, a + b) ==
      (var r := DestroyAll(lists, a); if r.outcome.Pass? then DestroyAll(r.lists, b) else r)
    decreases |a|
  {
    if a == [] {
      assert a + b == b;
    } else {
      assert (a + b)[0] == a[0] && (a + b)[1..] == a[1..] + b;
      match Take(lists, a[0]) {
        case None =>
        case Some(next) => DestroyAppend(next, a[1..], b);
      }
    }
  }

  /** Putting a removed element back restores the list's contents. */
  lemma RemoveFirstRestore(s: seq<Bullet>, x: Bullet)
    requires x in s
    ensures multiset(RemoveFirst(s, x)) + multiset{x} == multiset(s)
  {
    assert x in multiset(s);
  }

  /** Taking a bullet removes one occurrence of it and nothing else. */
  lemma TakeRestore(lists: Lists, b: Bullet)
    requires Take(lists, b).Some?
    ensures var next := Take(lists, b).value;
      multiset(next.player) + multiset(next.enemy) + multiset{b}
        == multiset(lists.player) + multiset(lists.enemy)
  {
    if b.isEnemy {
      RemoveFirstRestore(lists.enemy, b);
    } else {
      RemoveFirstRestore(lists.player, b);
    }
  }

  lemma MultisetRegroup(rp: multiset<Bullet>, re: multiset<Bullet>, rest: multiset<Bullet>,
                        np: multiset<Bullet>, ne: multiset<Bullet>, b: multiset<Bullet>,
                        lp: multiset<Bullet>, le: multiset<Bullet>)
    requires rp + re + rest == np + ne
    requires np + ne + b == lp + le
    ensures rp + re + (rest + b) == lp + le
  {
  }

  /** A destroy that does not raise removes exactly the given bullets: one
      occurrence each, nothing else. */
  lemma {:induction false} DestroyRemovesExactly(lists: Lists, bullets: seq<Bullet>)
    requires DestroyAll(lists, bullets).outcome.Pass?
    ensures var r := DestroyAll(lists, bullets).lists;
      multiset(r.player) + multiset(r.enemy) + multiset(bullets)
        == multiset(lists.player) + multiset(lists.enemy)
    decreases |bullets|
  {
    if bullets != [] {
      var b, rest := bullets[0], bullets[1..];
      DestroyStep(lists, bullets, 0);
      var next := Take(lists, b).value;
      MultisetCons(bullets);
      TakeRestore(lists, b);
      DestroyRemovesExactly(next, rest);
      var r := DestroyAll(next, rest).lists;
      MultisetRegroup(multiset(r.player), multiset(r.enemy), multiset(rest),
        multiset(next.player), multiset(next.enemy), multiset{b},
        multiset(lists.player), multiset(lists.enemy));
    }
  }

  lemma MultisetCons(s: seq<Bullet>)
    requires s != []
    ensures multiset(s) == multiset(s[1..]) + multiset{s[0]}
  {
    assert s == [s[0]] + s[1..];
  }

  /** Taking a bullet keeps each list free of duplicates and of the other kind. */
  lemma TakeKeepsValid(lists: Lists, b: Bullet)
    requires ValidLists(lists) && Take(lists, b).Some?
    ensures ValidLists(Take(lists, b).value)
  {
    if b.isEnemy {
      RemoveFirstNoDuplicates(lists.enemy, b);
    } else {
      RemoveFirstNoDuplicates(lists.player, b);
    }
  }

  /** destroy keeps each list free of duplicates and of the other kind. */
  lemma {:induction false} DestroyKeepsValid(lists: Lists, bullets: seq<Bullet>)
    requires ValidLists(lists)
    ensures ValidLists(DestroyAll(lists, bullets).lists)
    decreases |bullets|
  {
    if bullets != [] && Take(lists, bullets[0]).Some? {
      TakeKeepsValid(lists, bullets[0]);
      DestroyKeepsValid(Take(lists, bullets[0]).value, bullets[1..]);
    }
  }

  /** One step of destroy: the bullet at position i is taken or raises. */
  lemma DestroyStep(lists: Lists, bullets: seq<Bullet>, i: nat)
    requires i < |bullets|
    ensures bullets[0..] == bullets
    ensures DestroyAll(lists, bullets[i..]) == match Take(lists, bullets[i])
      case None => Removal(lists, Fail(ListRemoveMessage))
      case Some(next) => DestroyAll(next, bullets[i + 1..])
  {
    assert bullets[i..][0] == bullets[i] && bullets[i..][1..] == bullets[i + 1..];
  }

  /** Destroying a bullet first removes it from its list, then goes on. */
  lemma DestroyFirst(lists: Lists, z: Bullet, tail: seq<Bullet>)
    requires Take(lists, z).Some?
    ensures DestroyAll(lists, [z] + tail) == DestroyAll(Take(lists, z).value, tail)
  {
    assert ([z] + tail)[0] == z && ([z] + tail)[1..] == tail;
  }

  lemma ConcatAssoc(a: seq<Bullet>, b: seq<Bullet>, c: seq<Bullet>)
    ensures a + (b + c) == (a + b) + c
  {
  }

  lemma FilterCons(z: Bullet, rest: seq<Bullet>, p: Bullet -> bool, keep: bool)
    ensures Filter([z] + rest, p, keep) == (if p(z) == keep then [z] else []) + Filter(rest, p, keep)
  {
    assert ([z] + rest)[1..] == rest;
  }

  /** The two lists, with the list of one side (the enemy's when `enemy`)
      given as `mine` and the other side's as `other`. */
  function WithSide(enemy: bool, mine: seq<Bullet>, other: seq<Bullet>): Lists
  {
    if enemy then Lists(other, mine) else Lists(mine, other)
  }

  /** Destroying, in order, the bullets of `xs` that hit removes them from
      their side's list `pre + xs` and leaves the misses in order. */
  lemma {:induction false} DestroyFiltered(enemy: bool, pre: seq<Bullet>, xs: seq<Bullet>, other: seq<Bullet>, hits: Bullet -> bool)
    requires NoDuplicates(pre + xs)
    requires forall i | 0 <= i < |xs| :: xs[i].isEnemy == enemy
    ensures DestroyAll(WithSide(enemy, pre + xs, other), Filter(xs, hits, true))
      == Removal(WithSide(enemy, pre + Filter(xs, hits, false), other), Pass)
    decreases |xs|, 1
  {
    if xs == [] {
      assert pre + xs == pre;
    } else if hits(xs[0]) {
      DestroyFilteredHit(enemy, pre, xs, other, hits);
    } else {
      DestroyFilteredMiss(enemy, pre, xs, other, hits);
    }
  }

  lemma {:induction false} DestroyFilteredHit(enemy: bool, pre: seq<Bullet>, xs: seq<Bullet>, other: seq<Bullet>, hits: Bullet -> bool)
    requires xs != [] && hits(xs[0])
    requires NoDuplicates(pre + xs)
    requires forall i | 0 <= i < |xs| :: xs[i].isEnemy == enemy
    ensures DestroyAll(WithSide(enemy, pre + xs, other), Filter(xs, hits, true))
      == Removal(WithSide(enemy, pre + Filter(xs, hits, false), other), Pass)
    decreases |xs|, 0
  {
    var z, rest := xs[0], xs[1..];
    assert xs == [z] + rest;
    assert pre + xs == pre + [z] + rest;
    assert NoDuplicates(pre + rest) && z !in pre by {
      NoDuplicatesSplit(pre, z, rest);
    }
    FilterCons(z, rest, hits, true);
    FilterCons(z, rest, hits, false);
    assert forall i | 0 <= i < |rest| :: rest[i].isEnemy == enemy by {
      forall i | 0 <= i < |rest| ensures rest[i].isEnemy == enemy { assert rest[i] == xs[i + 1]; }
    }
    assert Take(WithSide(enemy, pre + xs, other), z) == Some(WithSide(enemy, pre + rest, other)) by {
      RemoveFirstAt(pre, z, rest);
    }
    DestroyFirst(WithSide(enemy, pre + xs, other), z, Filter(rest, hits, true));
    assert Filter(xs, hits, false) == Filter(rest, hits, false);
    DestroyFiltered(enemy, pre, rest, other, hits);
  }

  lemma {:induction false} DestroyFilteredMiss(enemy: bool, pre: seq<Bullet>, xs: seq<Bullet>, other: seq<Bullet>, hits: Bullet -> bool)
    requires xs != [] && !hits(xs[0])
    requires NoDuplicates(pre + xs)
    requires forall i | 0 <= i < |xs| :: xs[i].isEnemy == enemy
    ensures DestroyAll(WithSide(enemy, pre + xs, other), Filter(xs, hits, true))
      == Removal(WithSide(enemy, pre + Filter(xs, hits, false), other), Pass)
    decreases |xs|, 0
  {
    var z, rest := xs[0], xs[1..];
    var pre2 := pre + [z];
    assert xs == [z] + rest;
    assert pre + xs == pre2 + rest by { ConcatAssoc(pre, [z], rest); }
    assert Filter(xs, hits, true) == Filter(rest, hits, true) by {
      FilterCons(z, rest, hits, true);
    }
    assert Filter(xs, hits, false) == [z] + Filter(rest, hits, false) by {
      FilterCons(z, rest, hits, false);
    }
    assert forall i | 0 <= i < |rest| :: rest[i].isEnemy == enemy by {
      forall i | 0 <= i < |rest| ensures rest[i].isEnemy == enemy { assert rest[i] == xs[i + 1]; }
    }
    DestroyFiltered(enemy, pre2, rest, other, hits);
    ConcatAssoc(pre, [z], Filter(rest, hits, false));
  }

  /** Destroying the enemy bullets that hit a rectangle succeeds and leaves
      exactly the enemy bullets that missed it, in their order, with the
      player's bullets untouched. */
  lemma DestroyEnemyHits(lists: Lists, hits: Bullet -> bool)
    requires ValidLists(lists)
    ensures DestroyAll(lists, Filter(lists.enemy, hits, true))
      == Removal(Lists(lists.player, Filter(lists.enemy, hits, false)), Pass)
  {
    assert [] + lists.enemy == lists.enemy;
    DestroyFiltered(true, [], lists.enemy, lists.player, hits);
    assert [] + Filter(lists.enemy, hits, false) == Filter(lists.enemy, hits, false);
  }

  /** The same for the player's bullets that hit a rectangle. */
  lemma DestroyPlayerHits(lists: Lists, hits: Bullet -> bool)
    requires ValidLists(lists)
    ensures DestroyAll(lists, Filter(lists.player, hits, true))
      == Removal(Lists(Filter(lists.player, hits, false), lists.enemy), Pass)
  {
    assert [] + lists.player == lists.player;
    DestroyFiltered(false, [], lists.player, lists.enemy, hits);
    assert [] + Filter(lists.player, hits, false) == Filter(lists.player, hits, false);
  }

  class BulletController {
    var playerBullets: seq<Bullet>
    var enemyBullets: seq<Bullet>

    ghost predicate Valid()
      reads this
    {
      ValidLists(Lists(playerBullets, enemyBullets))
    }

    constructor ()
      ensures Valid()
      ensures playerBullets == [] && enemyBullets == []
    {
      playerBullets := [];
      enemyBullets := [];
    }

    /** player_shoot: a new player bullet goes to the end of the player's list. */
    method PlayerShoot(origin: (real, real), direction: real, speed: int, damage: int)
      requires Valid()
      modifies this`playerBullets
      ensures Valid()
      ensures |playerBullets| == |old(playerBullets)| + 1
      ensures playerBullets[..|old(playerBullets)|] == old(playerBullets)
      ensures var b := playerBullets[|old(playerBullets)|];
        fresh(b) && !b.isEnemy && b.origin == origin && b.direction == direction
        && b.speed == speed && b.damage == damage
    {
      var b := new Bullet(origin, direction, speed, damage, false);
      assert b !in playerBullets;
      playerBullets := playerBullets + [b];
      assert playerBullets[..|old(playerBullets)|] == old(playerBullets);
    }

    /** enemy_shoot: a new enemy bullet goes to the end of the enemies' list. */
    method EnemyShoot(origin: (real, real), direction: real, speed: int, damage: int)
      requires Valid()
      modifies this`enemyBullets
      ensures Valid()
      ensures |enemyBullets| == |old(enemyBullets)| + 1
      ensures enemyBullets[..|old(enemyBullets)|] == old(enemyBullets)
      ensures var b := enemyBullets[|old(enemyBullets)|];
        fresh(b) && b.isEnemy && b.origin == origin && b.direction == direction
        && b.speed == speed && b.damage == damage
    {
      var b := new Bullet(origin, direction, speed, damage, true);
      assert b !in enemyBullets;
      enemyBullets := enemyBullets + [b];
      assert enemyBullets[..|old(enemyBullets)|] == old(enemyBullets);
    }

    /** check_collision_withenemybul: the enemy bullets that hit, in list order. */
    method CheckCollisionWithEnemyBullets(hits: Bullet -> bool) returns (bullets: seq<Bullet>)
      ensures bullets == Filter(enemyBullets, hits, true)
    {
      bullets := [];
      for i := 0 to |enemyBullets|
        invariant bullets == Filter(enemyBullets[..i], hits, true)
      {
        FilterAppend(enemyBullets[..i], enemyBullets[i], hits, true);
        assert enemyBullets[..i + 1] == enemyBullets[..i] + [enemyBullets[i]];
        if hits(enemyBullets[i]) {
          bullets := bullets + [enemyBullets[i]];
        }
      }
      assert enemyBullets[..|enemyBullets|] == enemyBullets;
    }

    /** check_collision_withplayerbul: the player bullets that hit, in list order. */
    method CheckCollisionWithPlayerBullets(hits: Bullet -> bool) returns (bullets: seq<Bullet>)
      ensures bullets == Filter(playerBullets, hits, true)
    {
      bullets := [];
      for i := 0 to |playerBullets|
        invariant bullets == Filter(playerBullets[..i], hits, true)
      {
        FilterAppend(playerBullets[..i], playerBullets[i], hits, true);
        assert playerBullets[..i + 1] == playerBullets[..i] + [playerBullets[i]];
        if hits(playerBullets[i]) {
          bullets := bullets + [playerBullets[i]];
        }
      }
      assert playerBullets[..|playerBullets|] == playerBullets;
    }

    /** destroy: remove each given bullet from the list of its kind. */
    method Destroy(bullets: seq<Bullet>) returns (outcome: Outcome<string>)
      requires Valid()
      modifies this
      ensures Valid()
      ensures Removal(Lists(playerBullets, enemyBullets), outcome)
        == DestroyAll(old(Lists(playerBullets, enemyBullets)), bullets)
    {
      ghost var start := Lists(playerBullets, enemyBullets);
      for i := 0 to |bullets|
        invariant ValidLists(Lists(playerBullets, enemyBullets))
        invariant DestroyAll(Lists(playerBullets, enemyBullets), bullets[i..]) == DestroyAll(start, bullets)
      {
        var b := bullets[i];
        ghost var current := Lists(playerBullets, enemyBullets);
        DestroyStep(current, bullets, i);
        if b.isEnemy {
          if b !in enemyBullets {
            return Fail(ListRemoveMessage);
          }
          TakeKeepsValid(current, b);
          enemyBullets := RemoveFirst(enemyBullets, b);
        } else {
          if b !in playerBullets {
            return Fail(ListRemoveMessage);
          }
          TakeKeepsValid(current, b);
          playerBullets := RemoveFirst(playerBullets, b);
        }
      }
      return Pass;
    }
  }
}

=== FILE: direction.dfy ===
/** `compute_direction`: the compass octant a velocity points to, used to pick
    the row of the walking animation. Screen coordinates: x grows to the
    right and y grows downwards, so a negative y component points up. */
module Direction {

  /** The value compute_direction returns for a velocity of zero. */
  const NoDirection: int := -1

  /** The sign of a velocity component: -1, 0 or 1. */
  function Sign(x: real): (s: int)
    ensures -1 <= s <= 1
    ensures s == 0 <==> x == 0.0
    ensures s > 0 <==> x > 0.0
  {
    if x > 0.0 then 1 else if x < 0.0 then -1 else 0
  }

  /** The horizontal step of octant d: 0 is up, then clockwise in steps of 45 degrees. */
  function OctantX(d: int): int
    requires 0 <= d < 8
  {
    if d == 0 || d == 4 then 0 else if d < 4 then 1 else -1
  }

  /** The vertical step of octant d (down is positive). */
  function OctantY(d: int): int
    requires 0 <= d < 8
  {
    if d == 2 || d == 6 then 0 else if 2 < d < 6 then 1 else -1
  }

  /** The octant of velocity (vx, vy), or -1 when both components are zero;
      the octant's step has the signs of the two components. */
  function ComputeDirection(vx: real, vy: real): (d: int)
    ensures -1 <= d <= 7
    ensures d == NoDirection <==> vx == 0.0 && vy == 0.0
    ensures d != NoDirection ==> OctantX(d) == Sign(vx) && OctantY(d) == Sign(vy)
  {
    if vx == 0.0 && vy < 0.0 then 0
    else if vx > 0.0 && vy < 0.0 then 1
    else if vx > 0.0 && vy == 0.0 then 2
    else if vx > 0.0 && vy > 0.0 then 3
    else if vx == 0.0 && vy > 0.0 then 4
    else if vx < 0.0 && vy > 0.0 then 5
    else if vx < 0.0 && vy == 0.0 then 6
    else if vx < 0.0 && vy < 0.0 then 7
    else NoDirection
  }

  /** No two octants share a step, so the octant that ComputeDirection picks
      is the only one matching the velocity's signs. */
  lemma OctantUnique(vx: real, vy: real, d: int)
    requires 0 <= d < 8
    requires OctantX(d) == Sign(vx) && OctantY(d) == Sign(vy)
    ensures ComputeDirection(vx, vy) == d
  {
  }

  /** Only the signs of the components matter: scaling a velocity by a
      positive factor keeps its direction. */
  lemma DirectionScaleInvariant(vx: real, vy: real, k: real)
    requires k > 0.0
    ensures ComputeDirection(k * vx, k * vy) == ComputeDirection(vx, vy)
  {
    assert Sign(k * vx) == Sign(vx) && Sign(k * vy) == Sign(vy);
    if ComputeDirection(vx, vy) != NoDirection {
      OctantUnique(k * vx, k * vy, ComputeDirection(vx, vy));
    }
  }

  /** Reversing a moving velocity turns its direction by half a circle. */
  lemma DirectionOpposite(vx: real, vy: real)
    requires vx != 0.0 || vy != 0.0
    ensures ComputeDirection(-vx, -vy) == (ComputeDirection(vx, vy) + 4) % 8
  {
  }

  /** Mirroring left and right reflects the direction about the vertical axis. */
  lemma DirectionMirror(vx: real, vy: real)
    requires vx != 0.0 || vy != 0.0
    ensures ComputeDirection(-vx, vy) == (8 - ComputeDirection(vx, vy)) % 8
  {
  }

  /** Even directions are the four axis-aligned ones, odd directions the diagonals. */
  lemma DirectionCardinal(vx: real, vy: real)
    requires vx != 0.0 || vy != 0.0
    ensures ComputeDirection(vx, vy) % 2 == 0 <==> vx == 0.0 || vy == 0.0
  {
  }
}

=== FILE: hex_map.dfy ===
/** The tile-map file format read by `load_hex_map`: one map row per text
    line, each row sixteen whitespace-separated hexadecimal tile numbers.
    Opening and reading the file is outside the model; the input here is the
    list of lines the file yields. */
module HexMap {
  import opened Wrappers

  /** Every row of a tile map is this many tiles wide. */
  const RowWidth: nat := 16

  /** The message of the RuntimeError raised for a row of the wrong width. */
  const CorruptMapMessage: string :=
    "The map file is invalid or has been corrupted. (line length should be 16)"

  datatype MapError =
    | InvalidLiteral(token: string)  // the ValueError of int(token, 16)
    | CorruptRow(message: string)    // the RuntimeError for a row that is not 16 wide

  // ---------------------------------------------------------------------
  // Splitting a line into tokens: str.split() with no separator.
  // ---------------------------------------------------------------------

  /** The characters str.split() treats as separators (str.isspace()). */
  predicate IsSpace(c: char)
  {
    var n := c as int;
    n == 0x20 || 0x09 <= n <= 0x0D || 0x1C <= n <= 0x1F || n == 0x85 || n == 0xA0
    || n == 0x1680 || 0x2000 <= n <= 0x200A || n == 0x2028 || n == 0x2029
    || n == 0x202F || n == 0x205F || n == 0x3000
  }

  /** A token: a non-empty run of non-separator characters. */
  predicate IsWord(w: string)
  {
    w != [] && forall i | 0 <= i < |w| :: !IsSpace(w[i])
  }

  /** The length of the run of non-separators at the start of `s`. */
  function WordLength(s: string): (n: nat)
    ensures n <= |s|
    ensures forall i | 0 <= i < n :: !IsSpace(s[i])
    ensures n < |s| ==> IsSpace(s[n])
  {
    if s == [] || IsSpace(s[0]) then 0 else 1 + WordLength(s[1..])
  }

  /** The maximal runs of non-separators of `s`, in order. */
  function Split(s: string): (words: seq<string>)
    ensures forall w | w in words :: IsWord(w)
    decreases |s|
  {
    if s == [] then []
    else if IsSpace(s[0]) then Split(s[1..])
    else
      var n := WordLength(s);
      [s[..n]] + Split(s[n..])
  }

  /** The characters of `s` that are not separators. */
  function NonSpace(s: string): string
  {
    if s == [] then [] else (if IsSpace(s[0]) then [] else [s[0]]) + NonSpace(s[1..])
  }

  /** All words laid end to end. */
  function Concat(words: seq<string>): string
  {
    if words == [] then [] else words[0] + Concat(words[1..])
  }

  /** Words written out with one space between neighbours. */
  function JoinWords(words: seq<string>): string
  {
    if words == [] then []
    else if |words| == 1 then words[0]
    else words[0] + (" " + JoinWords(words[1..]))
  }

  lemma {:induction false} NonSpaceAppend(a: string, b: string)
    ensures NonSpace(a + b) == NonSpace(a) + NonSpace(b)
  {
    if a != [] {
      assert (a + b)[1..] == a[1..] + b;
      NonSpaceAppend(a[1..], b);
    } else {
      assert a + b == b;
    }
  }

  lemma {:induction false} NonSpaceOfWord(w: string)
    requires forall i | 0 <= i < |w| :: !IsSpace(w[i])
    ensures NonSpace(w) == w
  {
    if w != [] {
      NonSpaceOfWord(w[1..]);
      assert w == [w[0]] + w[1..];
    }
  }

  /** Splitting loses exactly the separators: the tokens, laid end to end,
      are the line's non-separator characters. */
  lemma {:induction false} SplitKeepsText(s: string)
    ensures Concat(Split(s)) == NonSpace(s)
    decreases |s|
  {
    if s == [] {
    } else if IsSpace(s[0]) {
      SplitKeepsText(s[1..]);
    } else {
      var n := WordLength(s);
      assert s == s[..n] + s[n..];
      NonSpaceAppend(s[..n], s[n..]);
      NonSpaceOfWord(s[..n]);
      SplitKeepsText(s[n..]);
      assert Split(s)[1..] == Split(s[n..]);
    }
  }

  lemma {:induction false} WordLengthAppend(s: string, t: string)
    ensures WordLength(s + t) == if WordLength(s) < |s| then WordLength(s) else |s| + WordLength(t)
  {
    if s == [] {
      assert s + t == t;
    } else if !IsSpace(s[0]) {
      assert (s + t)[1..] == s[1..] + t;
      WordLengthAppend(s[1..], t);
    }
  }

  /** A trailing separator, such as the newline each line of the file ends
      with, does not change the tokens of a line. */
  lemma {:induction false} SplitTrailingSpace(s: string, c: char)
    requires IsSpace(c)
    ensures Split(s + [c]) == Split(s)
    decreases |s|
  {
    if s == [] {
      assert (s + [c])[1..] == [];
    } else if IsSpace(s[0]) {
      assert (s + [c])[1..] == s[1..] + [c];
      SplitTrailingSpace(s[1..], c);
    } else {
      var n := WordLength(s);
      WordLengthAppend(s, [c]);
      assert (s + [c])[..n] == s[..n];
      assert (s + [c])[n..] == s[n..] + [c];
      SplitTrailingSpace(s[n..], c);
    }
  }

  lemma {:induction false} WordLengthOfWord(w: string, tail: string)
    requires IsWord(w)
    requires tail == [] || IsSpace(tail[0])
    ensures WordLength(w + tail) == |w|
  {
    WordLengthAppend(w, tail);
    if tail != [] {
      assert WordLength(tail) == 0;
    }
  }

  /** Tokens written out one space apart split back into the same tokens. */
  lemma {:induction false} SplitJoin(words: seq<string>)
    requires forall w | w in words :: IsWord(w)
    ensures Split(JoinWords(words)) == words
  {
    if words == [] {
    } else if |words| == 1 {
      var w := words[0];
      WordLengthOfWord(w, []);
      assert w + [] == w;
      assert w[..|w|] == w && w[|w|..] == [];
    } else {
      var w, rest := words[0], JoinWords(words[1..]);
      var s := w + (" " + rest);
      WordLengthOfWord(w, " " + rest);
      assert s[..|w|] == w;
      assert s[|w|..] == " " + rest;
      assert (" " + rest)[1..] == rest;
      SplitJoin(words[1..]);
      assert Split(s) == [w] + words[1..];
    }
  }

  /** A run made only of separators (possibly empty). */
  predicate AllSpace(g: string)
  {
    forall i | 0 <= i < |g| :: IsSpace(g[i])
  }

  /** Words, each followed by its own run of separators. */
  function Spaced(words: seq<string>, gaps: seq<string>): string
    requires |gaps| == |words|
  {
    if words == [] then [] else words[0] + gaps[0] + Spaced(words[1..], gaps[1..])
  }

  lemma {:induction false} SplitLeadingSpaces(g: string, s: string)
    requires AllSpace(g)
    ensures Split(g + s) == Split(s)
  {
    if g == [] {
      assert g + s == s;
    } else {
      assert (g + s)[1..] == g[1..] + s;
      SplitLeadingSpaces(g[1..], s);
    }
  }

  /** The tokens are maximal: words separated by runs of any separators, of
      any non-zero length, with any separators before the first word and
      after the last, split back into exactly those words. */
  lemma {:induction false} SplitSpaced(lead: string, words: seq<string>, gaps: seq<string>)
    requires AllSpace(lead)
    requires |gaps| == |words|
    requires forall w | w in words :: IsWord(w)
    requires forall i | 0 <= i < |gaps| :: AllSpace(gaps[i])
    requires forall i | 0 <= i < |gaps| - 1 :: gaps[i] != []
    ensures Split(lead + Spaced(words, gaps)) == words
    decreases |words|
  {
    SplitLeadingSpaces(lead, Spaced(words, gaps));
    if words != [] {
      var w, g, rest := words[0], gaps[0], Spaced(words[1..], gaps[1..]);
      var tail := g + rest;
      assert Spaced(words, gaps) == w + tail;
      assert tail == [] || IsSpace(tail[0]) by {
        if g == [] {
          assert |words| == 1 && rest == [];
        } else {
          assert tail[0] == g[0];
        }
      }
      WordLengthOfWord(w, tail);
      assert (w + tail)[..|w|] == w;
      assert (w + tail)[|w|..] == tail;
      SplitSpaced(g, words[1..], gaps[1..]);
    }
  }

  // ---------------------------------------------------------------------
  // Reading a token in base 16: int(token, 16).
  // ---------------------------------------------------------------------

  predicate IsHexDigit(c: char)
  {
    '0' <= c <= '9' || 'a' <= c <= 'f' || 'A' <= c <= 'F'
  }

  function DigitValue(c: char): (v: nat)
    requires IsHexDigit(c)
    ensures v < 16
  {
    if '0' <= c <= '9' then c as int - '0' as int
    else if 'a' <= c <= 'f' then c as int - 'a' as int + 10
    else c as int - 'A' as int + 10
  }

  /** A token int(token, 16) accepts with no sign, prefix or underscore. */
  predicate IsHexLiteral(t: string)
  {
    t != [] && forall i | 0 <= i < |t| :: IsHexDigit(t[i])
  }

  function Pow16(k: nat): (p: nat)
    ensures p >= 1
  {
    if k == 0 then 1 else 16 * Pow16(k - 1)
  }

  /** The number a string of hexadecimal digits denotes, most significant
      digit first; it is below 16 to the power of the number of digits. */
  function HexValue(t: string): (v: nat)
    requires forall i | 0 <= i < |t| :: IsHexDigit(t[i])
    ensures v < Pow16(|t|)
  {
    if t == [] then 0
    else
      var high := HexValue(t[..|t| - 1]);
      assert high * 16 <= (Pow16(|t| - 1) - 1) * 16;
      high * 16 + DigitValue(t[|t| - 1])
  }

  /** The upper-case digits A-F read as 10-15, as the lower-case ones do. */
  lemma UpperDigit(d: nat)
    requires 10 <= d < 16
    ensures IsHexDigit(('A' as int + d - 10) as char)
    ensures DigitValue(('A' as int + d - 10) as char) == d
  {
  }

  /** A leading zero does not change the value of a token. */
  lemma {:induction false} HexLeadingZero(t: string)
    requires forall i | 0 <= i < |t| :: IsHexDigit(t[i])
    ensures HexValue(['0'] + t) == HexValue(t)
    decreases |t|
  {
    if t == [] {
      assert (['0'] + t)[..0] == [];
    } else {
      var init := t[..|t| - 1];
      assert (['0'] + t)[..|t|] == ['0'] + init;
      assert (['0'] + t)[|t|] == t[|t| - 1];
      HexLeadingZero(init);
    }
  }

  /** The lower-case digit of a value below 16. */
  function DigitChar(d: nat): (c: char)
    requires d < 16
    ensures IsHexDigit(c) && DigitValue(c) == d
  {
    if d < 10 then ('0' as int + d) as char else ('a' as int + d - 10) as char
  }

  /** The shortest lower-case hexadecimal writing of `n` (as a map file holds it). */
  function HexDigits(n: nat): (t: string)
    ensures IsHexLiteral(t)
  {
    if n < 16 then [DigitChar(n)] else HexDigits(n / 16) + [DigitChar(n % 16)]
  }

  /** Reading back the hexadecimal writing of a number gives the number. */
  lemma {:induction false} HexRoundTrip(n: nat)
    ensures HexValue(HexDigits(n)) == n
  {
    var t := HexDigits(n);
    if n < 16 {
      assert t[..|t| - 1] == [];
    } else {
      assert t[..|t| - 1] == HexDigits(n / 16);
      HexRoundTrip(n / 16);
    }
  }

  /** int(token, 16), raising ValueError for anything but plain hex digits. */
  function ParseToken(t: string): (r: Result<nat, MapError>)
    ensures r.Success? <==> IsHexLiteral(t)
    ensures r.Success? ==> r.value < Pow16(|t|)
    ensures r.Failure? ==> r.error == InvalidLiteral(t)
  {
    if IsHexLiteral(t) then Success(HexValue(t)) else Failure(InvalidLiteral(t))
  }

  /** Every number written in hexadecimal, as a map file holds it, converts
      back to itself. */
  lemma ParseTokenRoundTrip(n: nat)
    ensures ParseToken(HexDigits(n)) == Success(n)
  {
    HexRoundTrip(n);
  }

  // ---------------------------------------------------------------------
  // Rows and the whole map.
  // ---------------------------------------------------------------------

  /** The tokens of one line converted left to right; the first token that
      is not a hexadecimal literal raises. */
  function ParseTokens(tokens: seq<string>): (r: Result<seq<nat>, MapError>)
    ensures r.Success? <==> forall i | 0 <= i < |tokens| :: IsHexLiteral(tokens[i])
    ensures r.Success? ==> |r.value| == |tokens|
    ensures r.Success? ==> forall i | 0 <= i < |tokens| ::
      IsHexLiteral(tokens[i]) && r.value[i] == HexValue(tokens[i])
    ensures r.Failure? ==> exists k | 0 <= k < |tokens| ::
      && (forall i | 0 <= i < k :: IsHexLiteral(tokens[i]))
      && !IsHexLiteral(tokens[k])
      && r.error == InvalidLiteral(tokens[k])
  {
    if tokens == [] then Success([])
    else
      var init, last := tokens[..|tokens| - 1], tokens[|tokens| - 1];
      assert forall i | 0 <= i < |init| :: init[i] == tokens[i];
      match ParseTokens(init)
      case Failure(e) => Failure(e)
      case Success(row) =>
        match ParseToken(last)
        case Failure(e) => Failure(e)
        case Success(v) => Success(row + [v])
  }

  /** A well-formed line: exactly sixteen tokens, each a hexadecimal literal. */
  predicate IsValidRow(tokens: seq<string>)
  {
    |tokens| == RowWidth && forall i | 0 <= i < |tokens| :: IsHexLiteral(tokens[i])
  }

  /** One row of the map: converting the tokens comes first, the width check after. */
  function ParseRow(tokens: seq<string>): (r: Result<seq<nat>, MapError>)
    ensures r.Success? <==> IsValidRow(tokens)
    ensures r.Success? ==> |r.value| == RowWidth
    ensures r.Success? ==> forall i | 0 <= i < |tokens| ::
      IsHexLiteral(tokens[i]) && r.value[i] == HexValue(tokens[i])
    ensures r == Failure(CorruptRow(CorruptMapMessage)) <==>
      (forall i | 0 <= i < |tokens| :: IsHexLiteral(tokens[i])) && |tokens| != RowWidth
  {
    match ParseTokens(tokens)
    case Failure(e) => Failure(e)
    case Success(row) =>
      if |row| != RowWidth then Failure(CorruptRow(CorruptMapMessage)) else Success(row)
  }

  /** The map the lines of a file describe: one row per line, in order, or
      the error of the first line that is not a well-formed row. */
  function ParseMap(lines: seq<string>): (r: Result<seq<seq<nat>>, MapError>)
    ensures r.Success? <==> forall i | 0 <= i < |lines| :: IsValidRow(Split(lines[i]))
    ensures r.Success? ==> |r.value| == |lines|
    ensures r.Success? ==> forall i | 0 <= i < |lines| :: ParseRow(Split(lines[i])) == Success(r.value[i])
  {
    if lines == [] then Success([])
    else
      var init, last := lines[..|lines| - 1], lines[|lines| - 1];
      assert forall i | 0 <= i < |init| :: init[i] == lines[i];
      match ParseMap(init)
      case Failure(e) => Failure(e)
      case Success(grid) =>
        match ParseRow(Split(last))
        case Failure(e) => Failure(e)
        case Success(row) =>
          var rows := grid + [row];
          assert forall i | 0 <= i < |init| :: rows[i] == grid[i];
          assert rows[|init|] == row;
          Success(rows)
  }

  /** A loaded map has sixteen entries in every row, and each entry is the
      base-16 value of the token in the same place of the same line. */
  lemma ParseMapEntries(lines: seq<string>)
    requires ParseMap(lines).Success?
    ensures var grid := ParseMap(lines).value;
      && |grid| == |lines|
      && (forall i | 0 <= i < |lines| :: |grid[i]| == RowWidth && |Split(lines[i])| == RowWidth)
      && forall i, j | 0 <= i < |lines| && 0 <= j < RowWidth ::
           IsHexLiteral(Split(lines[i])[j]) && grid[i][j] == HexValue(Split(lines[i])[j])
  {
    var grid := ParseMap(lines).value;
    forall i | 0 <= i < |lines|
      ensures |grid[i]| == RowWidth && |Split(lines[i])| == RowWidth
      ensures forall j | 0 <= j < RowWidth :: IsHexLiteral(Split(lines[i])[j]) && grid[i][j] == HexValue(Split(lines[i])[j])
    {
      assert ParseRow(Split(lines[i])) == Success(grid[i]);
    }
  }

  lemma {:induction false} ParseTokensPrefixFailure(tokens: seq<string>, k: nat)
    requires k <= |tokens| && ParseTokens(tokens[..k]).Failure?
    ensures ParseTokens(tokens) == ParseTokens(tokens[..k])
    decreases |tokens| - k
  {
    if k == |tokens| {
      assert tokens[..k] == tokens;
    } else {
      assert tokens[..k + 1][..k] == tokens[..k];
      ParseTokensPrefixFailure(tokens, k + 1);
    }
  }

  lemma {:induction false} ParseMapPrefixFailure(lines: seq<string>, n: nat)
    requires n <= |lines| && ParseMap(lines[..n]).Failure?
    ensures ParseMap(lines) == ParseMap(lines[..n])
    decreases |lines| - n
  {
    if n == |lines| {
      assert lines[..n] == lines;
    } else {
      assert lines[..n + 1][..n] == lines[..n];
      assert ParseMap(lines[..n + 1]) == ParseMap(lines[..n]);
      ParseMapPrefixFailure(lines, n + 1);
    }
  }

  /** A failed load reports the error of the first line that is not a
      well-formed row; every line before it is well formed. */
  lemma {:induction false} ParseMapFirstError(lines: seq<string>)
    requires ParseMap(lines).Failure?
    ensures exists k | 0 <= k < |lines| ::
      && (forall i | 0 <= i < k :: IsValidRow(Split(lines[i])))
      && !IsValidRow(Split(lines[k]))
      && ParseMap(lines).error == ParseRow(Split(lines[k])).error
  {
    var init := lines[..|lines| - 1];
    if ParseMap(init).Failure? {
      ParseMapFirstError(init);
      var k :| 0 <= k < |init| && (forall i | 0 <= i < k :: IsValidRow(Split(init[i])))
        && !IsValidRow(Split(init[k])) && ParseMap(init).error == ParseRow(Split(init[k])).error;
      assert init[k] == lines[k];
      assert forall i | 0 <= i < k :: init[i] == lines[i];
    } else {
      var k := |lines| - 1;
      assert forall i | 0 <= i < k :: init[i] == lines[i];
      assert forall i | 0 <= i < k :: IsValidRow(Split(lines[i]));
    }
  }

  /** When every token of the file is a hexadecimal literal, loading fails
      with the row-width RuntimeError exactly when some line does not hold
      sixteen tokens. */
  lemma CorruptRowExactly(lines: seq<string>)
    requires forall i, j | 0 <= i < |lines| && 0 <= j < |Split(lines[i])| :: IsHexLiteral(Split(lines[i])[j])
    ensures ParseMap(lines) == Failure(CorruptRow(CorruptMapMessage)) <==>
      exists i | 0 <= i < |lines| :: |Split(lines[i])| != RowWidth
  {
    if ParseMap(lines).Failure? {
      ParseMapFirstError(lines);
    }
  }

  /** The inner loop of load_hex_map: convert one line's tokens into a row
      and check its width. */
  method ConvertRow(line: seq<string>) returns (r: Result<seq<nat>, MapError>)
    ensures r == ParseRow(line)
  {
    var tileline: seq<nat> := [];
    for k := 0 to |line|
      invariant ParseTokens(line[..k]) == Success(tileline)
    {
      var tile := line[k];
      assert line[..k + 1][..k] == line[..k];
      match ParseToken(tile) {
        case Failure(e) =>
          ParseTokensPrefixFailure(line, k + 1);
          return Failure(e);
        case Success(v) =>
          tileline := tileline + [v];
      }
    }
    assert line[..|line|] == line;
    if |tileline| != RowWidth {
      return Failure(CorruptRow(CorruptMapMessage));
    }
    return Success(tileline);
  }

  /** load_hex_map: split every line into tokens, then build the map row by
      row, stopping at the first line that is not a well-formed row. */
  method LoadHexMap(lines: seq<string>) returns (r: Result<seq<seq<nat>>, MapError>)
    ensures r == ParseMap(lines)
  {
    var strmap: seq<seq<string>> := [];
    for i := 0 to |lines|
      invariant |strmap| == i
      invariant forall k | 0 <= k < i :: strmap[k] == Split(lines[k])
    {
      strmap := strmap + [Split(lines[i])];
    }
    var maparray: seq<seq<nat>> := [];
    for n := 0 to |strmap|
      invariant ParseMap(lines[..n]) == Success(maparray)
    {
      assert lines[..n + 1][..n] == lines[..n];
      assert lines[..n + 1][n] == lines[n];
      var tileline := ConvertRow(strmap[n]);
      if tileline.Failure? {
        ParseMapPrefixFailure(lines, n + 1);
        return Failure(tileline.error);
      }
      maparray := maparray + [tileline.value];
    }
    assert lines[..|lines|] == lines;
    return Success(maparray);
  }
}

=== FILE: player.dfy ===
/** `Player`: the character Alice. Every frame `update` reads the keyboard,
    moves between the idle, moving and aiming states, resolves the direction
    keys into an acceleration, integrates the velocity and position, turns the
    aim cursor, and runs down the shot timer; `shoot_ifbuttonpressed` then
    decides whether a bullet leaves the gun. The key states of one frame are
    an input, and so is the frame's duration. Velocities, positions and angles
    are exact reals here. */
module Players {
  import opened Bullets
  import opened Direction

  // The states the game numbers; only idle, moving and aiming are ever entered.
  const Idle: int := 0
  const Moving: int := 1
  const Running: int := 2
  const Aiming: int := 3
  const Hiding: int := 4
  const HidingAiming: int := 5
  const Reloading: int := 6
  const AutoReload: int := 7

  const AccelCoef: int := 80
  const DragCoef: real := 2.0
  /** A velocity component smaller than this in magnitude snaps to zero. */
  const SnapLimit: real := 0.1
  const ShotInterval: real := 0.2
  const GunSpeed: int := 320
  const GunDamage: int := 40
  /** The aim counter moves one step per frame up to this magnitude, plus one. */
  const AimTickLimit: int := 30
  /** The aim cursor and the muzzle sit at this offset from the sprite's corner. */
  const MuzzleX: real := 12.0
  const MuzzleY: real := 8.0
  /** The angle, in degrees counter-clockwise from the x axis, of a shot fired
      without aiming: straight up the screen. */
  const UpAngle: real := 90.0

  /** The keys update reads in one frame (Z aims); the fire key X is read by
      shoot_ifbuttonpressed and reaches it as its own parameter. */
  datatype Keys = Keys(up: bool, down: bool, left: bool, right: bool, aim: bool)

  /** A coordinate or angle after changing at `rate` per second for dt seconds. */
  function Advance(x: real, rate: real, dt: real): real
  {
    x + rate * dt
  }

  function Min(a: int, b: int): int { if a <= b then a else b }
  function Max(a: int, b: int): int { if a >= b then a else b }

  // ---------------------------------------------------------------------
  // State transitions.
  // ---------------------------------------------------------------------

  /** The state after one frame: idle and moving follow whether the velocity
      was zero, holding the aim key from either of them enters aiming, and
      letting go of it while aiming returns to idle. */
  function NextState(state: int, stopped: bool, aimHeld: bool): (s: int)
    ensures state in {Idle, Moving, Aiming} ==> s in {Idle, Moving, Aiming}
    ensures state in {Idle, Moving, Aiming} ==> (s == Aiming <==> aimHeld)
    ensures s == Moving <==> (state == Idle || state == Moving) && !stopped && !aimHeld
    ensures state !in {Idle, Moving, Aiming} ==> s == state
  {
    if (state == Idle || state == Moving) && aimHeld then Aiming
    else if state == Idle || state == Moving then (if stopped then Idle else Moving)
    else if state == Aiming && !aimHeld then Idle
    else state
  }

  /** The state after the first n frames with the aim key held, the velocity
      being zero at the start of frame i exactly when stops[i]. */
  function HeldAimState(state: int, stops: seq<bool>, n: nat): int
    requires n <= |stops|
  {
    if n == 0 then state else NextState(HeldAimState(state, stops, n - 1), stops[n - 1], true)
  }

  /** From idle, moving or aiming, holding the aim key aims from the first
      frame on, whatever the velocity does. */
  lemma {:induction false} AimingWhileHeld(state: int, stops: seq<bool>, n: nat)
    requires state in {Idle, Moving, Aiming}
    requires 0 < n <= |stops|
    ensures HeldAimState(state, stops, n) == Aiming
  {
    if n > 1 {
      AimingWhileHeld(state, stops, n - 1);
    }
  }

  // ---------------------------------------------------------------------
  // Acceleration and velocity.
  // ---------------------------------------------------------------------

  /** The acceleration along one axis from its two opposing keys: the key
      toward the negative end alone gives -80, the other alone +80, both or
      neither give 0. */
  function AxisAcceleration(negative: bool, positive: bool): (a: int)
    ensures a == 0 || a == AccelCoef || a == -AccelCoef
    ensures a < 0 <==> negative && !positive
    ensures a > 0 <==> positive && !negative
  {
    if negative == positive then 0 else if negative then -AccelCoef else AccelCoef
  }

  /** Swapping the keys reverses the acceleration. */
  lemma AxisAccelerationSwap(negative: bool, positive: bool)
    ensures AxisAcceleration(positive, negative) == -AxisAcceleration(negative, positive)
  {
  }

  /** A component that reaches this is one the acceleration may produce. */
  predicate IsAxisAcceleration(a: int)
  {
    a == 0 || a == AccelCoef || a == -AccelCoef
  }

  /** The states in which the direction keys are read. */
  predicate Steerable(state: int)
  {
    state == Idle || state == Moving || state == Running || state == AutoReload
  }

  /** One frame of drag on one velocity component: add the acceleration,
      halve, and snap anything below 0.1 in magnitude to zero. */
  function Drag(v: real, a: int): (w: real)
    ensures w == 0.0 || w <= -SnapLimit || w >= SnapLimit
    ensures w == 0.0 <==> -SnapLimit < (v + a as real) / DragCoef < SnapLimit
    ensures w != 0.0 ==> w == (v + a as real) / DragCoef
    ensures -(AccelCoef as real) <= v <= AccelCoef as real && IsAxisAcceleration(a) ==>
      -(AccelCoef as real) <= w <= AccelCoef as real
  {
    var t := (v + a as real) / DragCoef;
    if t < SnapLimit && t > -SnapLimit then 0.0 else t
  }

  /** Without acceleration a velocity component at least halves each frame,
      and at rest it stays at rest. */
  lemma DragSlowsDown(v: real)
    ensures v >= 0.0 ==> 0.0 <= Drag(v, 0) <= v / 2.0
    ensures v <= 0.0 ==> v / 2.0 <= Drag(v, 0) <= 0.0
  {
  }

  /** The top speed along an axis is the acceleration itself: holding a key
      at top speed keeps it there. */
  lemma DragTopSpeed(a: int)
    requires a == AccelCoef || a == -AccelCoef
    ensures Drag(a as real, a) == a as real
  {
  }

  /** Holding one key from a standstill gains speed every frame and never
      passes the top speed. */
  lemma DragAccelerates(v: real)
    requires 0.0 <= v < AccelCoef as real
    ensures v < Drag(v, AccelCoef) < AccelCoef as real
  {
  }

  // ---------------------------------------------------------------------
  // The aim cursor.
  // ---------------------------------------------------------------------

  /** The aim counter after one aiming frame: turning left counts down from
      zero or below (a positive count restarts at zero), turning right counts
      up from zero or above, and both keys or neither reset it; the count
      stops one past 30 either way. */
  function NextAimCount(count: int, left: bool, right: bool): (c: int)
    ensures -AimTickLimit - 1 <= count <= AimTickLimit + 1 ==> -AimTickLimit - 1 <= c <= AimTickLimit + 1
    ensures c < 0 <==> left && !right
    ensures c > 0 <==> right && !left
  {
    if left && !right then
      (var down := Min(count, 0); if down >= -AimTickLimit then down - 1 else down)
    else if right && !left then
      (var up := Max(count, 0); if up <= AimTickLimit then up + 1 else up)
    else 0
  }

  /** Left and right are mirror images of each other. */
  lemma AimCountMirror(count: int, left: bool, right: bool)
    ensures NextAimCount(-count, right, left) == -NextAimCount(count, left, right)
  {
  }

  /** The rate, in degrees per second, at which an aiming frame turns the
      cursor: counter-clockwise for left, clockwise for right, starting at
      40 and 15 faster for every step the counter has already taken. */
  function AimRate(count: int, left: bool, right: bool): (r: real)
    ensures r > 0.0 <==> left && !right
    ensures r < 0.0 <==> right && !left
    ensures -AimTickLimit - 1 <= count <= AimTickLimit + 1 ==> -505.0 <= r <= 505.0
  {
    if left && !right then 40.0 + 15.0 * (-Min(count, 0)) as real
    else if right && !left then -(40.0 + 15.0 * Max(count, 0) as real)
    else 0.0
  }

  /** Turning restarts from zero: a count left over from turning the other
      way is dropped, so the first frame turns at the base rate of 40. */
  lemma AimRestarts(count: int)
    requires count > 0
    ensures NextAimCount(count, true, false) == -1 && AimRate(count, true, false) == 40.0
    ensures NextAimCount(-count, false, true) == 1 && AimRate(-count, false, true) == -40.0
  {
  }

  /** While turning on, the rate is 40 degrees per second plus 15 for every
      step already counted, counter-clockwise for LEFT and clockwise for RIGHT. */
  lemma AimRateRamp(count: nat)
    ensures AimRate(-(count as int), true, false) == 40.0 + 15.0 * count as real
    ensures AimRate(count, false, true) == -(40.0 + 15.0 * count as real)
  {
  }

  /** Left and right turn at mirrored rates. */
  lemma AimRateMirror(count: int, left: bool, right: bool)
    ensures AimRate(-count, right, left) == -AimRate(count, left, right)
  {
  }

  /** The counter after holding LEFT alone for n aiming frames, starting at zero. */
  function HeldLeftCount(n: nat): int
  {
    if n == 0 then 0 else NextAimCount(HeldLeftCount(n - 1), true, false)
  }

  /** Holding LEFT counts down one per frame until it stops at -31, so the
      cursor speeds up by 15 degrees per second each frame, from 40 to 505. */
  lemma {:induction false} HoldLeftRamp(n: nat)
    ensures HeldLeftCount(n) == -Min(n, AimTickLimit + 1)
    ensures AimRate(HeldLeftCount(n), true, false) == 40.0 + 15.0 * Min(n, AimTickLimit + 1) as real
  {
    if n > 0 {
      HoldLeftRamp(n - 1);
    }
  }

  // ---------------------------------------------------------------------
  // Fire gating.
  // ---------------------------------------------------------------------

  /** Whether a call of shoot_ifbuttonpressed fires: not while the shot timer
      runs, and only with the button down, and either in rapid fire or when
      the button was up at the last call that looked at it. Put in terms of
      the remembered button: a shot always leaves it remembered as down;
      without rapid fire a call fires exactly when the memory goes from up
      to down, and in rapid fire exactly when a call that finds the timer
      run down leaves it down. */
  function Fires(cooling: bool, down: bool, rapid: bool, stored: bool): (f: bool)
    ensures f ==> StoredAfter(cooling, down, stored)
    ensures !rapid ==> (f <==> !stored && StoredAfter(cooling, down, stored))
    ensures rapid ==> (f <==> !cooling && StoredAfter(cooling, down, stored))
  {
    !cooling && down && (rapid || !stored)
  }

  /** The button state remembered after a call: unchanged while cooling. */
  function StoredAfter(cooling: bool, down: bool, stored: bool): (s: bool)
    ensures !cooling ==> s == down
    ensures cooling ==> s == stored
  {
    if cooling then stored else down
  }

  /** Without rapid fire, a shot needs a fresh press: after a call that
      looked at the button, a call with the button still down does not fire. */
  lemma NoRefireWhileHeld(cooling: bool, down: bool, stored: bool)
    ensures !cooling && down ==> !Fires(false, true, false, StoredAfter(cooling, down, stored))
  {
  }

  /** One call of shoot_ifbuttonpressed as the gating sees it. */
  datatype FireCall = FireCall(cooling: bool, down: bool)

  /** The button remembered after a run of calls. */
  function MemoryAfter(stored: bool, calls: seq<FireCall>): bool
    decreases |calls|
  {
    if calls == [] then stored
    else
      var last := calls[|calls| - 1];
      StoredAfter(last.cooling, last.down, MemoryAfter(stored, calls[..|calls| - 1]))
  }

  /** The remembered button is the one seen by the last call that found the
      timer run down, or the initial memory when every call found it running. */
  lemma {:induction false} MemoryIsLastLook(stored: bool, calls: seq<FireCall>)
    ensures (forall i | 0 <= i < |calls| :: calls[i].cooling) ==> MemoryAfter(stored, calls) == stored
    ensures forall k | 0 <= k < |calls| && !calls[k].cooling ::
      (forall j | k < j < |calls| :: calls[j].cooling) ==> MemoryAfter(stored, calls) == calls[k].down
    decreases |calls|
  {
    if calls != [] {
      var init, last := calls[..|calls| - 1], calls[|calls| - 1];
      assert forall i | 0 <= i < |init| :: init[i] == calls[i];
      if last.cooling {
        MemoryIsLastLook(stored, init);
        assert MemoryAfter(stored, calls) == MemoryAfter(stored, init);
      } else {
        assert MemoryAfter(stored, calls) == last.down;
      }
    }
  }

  /** The number of bullets fired by a run of calls. */
  function Shots(rapid: bool, stored: bool, calls: seq<FireCall>): (n: nat)
    ensures n <= |calls|
    decreases |calls|
  {
    if calls == [] then 0
    else
      var c := calls[0];
      (if Fires(c.cooling, c.down, rapid, stored) then 1 else 0)
        + Shots(rapid, StoredAfter(c.cooling, c.down, stored), calls[1..])
  }

  /** The number of calls that find the timer run down and the button down. */
  function Ready(calls: seq<FireCall>): nat
  {
    if calls == [] then 0 else (if !calls[0].cooling && calls[0].down then 1 else 0) + Ready(calls[1..])
  }

  /** In rapid fire every call with the button down and the timer run down fires. */
  lemma {:induction false} RapidFiresWhenReady(stored: bool, calls: seq<FireCall>)
    decreases |calls|
    ensures Shots(true, stored, calls) == Ready(calls)
  {
    if calls != [] {
      var c := calls[0];
      RapidFiresWhenReady(StoredAfter(c.cooling, c.down, stored), calls[1..]);
    }
  }

  /** Without rapid fire no run fires more than it would with it. */
  lemma {:induction false} SingleFireNoMore(stored: bool, calls: seq<FireCall>)
    decreases |calls|
    ensures Shots(false, stored, calls) <= Ready(calls)
  {
    if calls != [] {
      var c := calls[0];
      SingleFireNoMore(StoredAfter(c.cooling, c.down, stored), calls[1..]);
    }
  }

  /** Without rapid fire, holding the button down fires once at most,
      and not at all when it was already down before. */
  lemma {:induction false} HeldButtonFiresOnce(stored: bool, calls: seq<FireCall>)
    requires forall i | 0 <= i < |calls| :: calls[i].down
    ensures Shots(false, stored, calls) <= if stored then 0 else 1
    decreases |calls|
  {
    if calls != [] {
      var c := calls[0];
      assert forall i | 0 <= i < |calls[1..]| :: calls[1..][i].down by {
        forall i | 0 <= i < |calls[1..]| ensures calls[1..][i].down {
          assert calls[1..][i] == calls[i + 1];
        }
      }
      HeldButtonFiresOnce(StoredAfter(c.cooling, c.down, stored), calls[1..]);
      if !c.cooling {
        HeldButtonFiresOnce(true, calls[1..]);
      }
    }
  }

  // ---------------------------------------------------------------------
  // The shot timer.
  // ---------------------------------------------------------------------

  /** The shot timer after a frame of length dt: it runs down while positive
      and is clamped to zero otherwise. A frame never raises the timer, and
      the frame that uses up the time left is the one that makes it run out. */
  function NextShotTimer(t: real, dt: real): (u: real)
    ensures dt >= 0.0 ==> u <= (if t > 0.0 then t else 0.0)
    ensures dt >= 0.0 && t > 0.0 ==> (u <= 0.0 <==> t <= dt)
    ensures t <= 0.0 ==> u == 0.0
  {
    if t > 0.0 then t - dt else 0.0
  }

  /** The timer after a run of frames. */
  function TimerAfter(t: real, dts: seq<real>): real
    decreases |dts|
  {
    if dts == [] then t else TimerAfter(NextShotTimer(t, dts[0]), dts[1..])
  }

  function Sum(dts: seq<real>): real
  {
    if dts == [] then 0.0 else dts[0] + Sum(dts[1..])
  }

  lemma {:induction false} SumNonNegative(dts: seq<real>)
    requires forall i | 0 <= i < |dts| :: dts[i] >= 0.0
    ensures Sum(dts) >= 0.0
  {
    if dts != [] {
      assert forall i | 0 <= i < |dts[1..]| :: dts[1..][i] == dts[i + 1];
      SumNonNegative(dts[1..]);
    }
  }

  /** A timer that has run down stays at zero. */
  lemma {:induction false} TimerStaysDown(t: real, dts: seq<real>)
    requires t <= 0.0
    ensures TimerAfter(t, dts) <= 0.0
    decreases |dts|
  {
    if dts != [] {
      TimerStaysDown(NextShotTimer(t, dts[0]), dts[1..]);
    }
  }

  /** Frames of non-negative length let the gun fire again exactly when at
      least the time left on the timer has passed: after a shot, the next one
      comes no sooner than 0.2 seconds of frames later. */
  lemma {:induction false} Cooldown(t: real, dts: seq<real>)
    requires t >= 0.0
    requires forall i | 0 <= i < |dts| :: dts[i] >= 0.0
    ensures TimerAfter(t, dts) <= 0.0 <==> Sum(dts) >= t
    decreases |dts|
  {
    if dts == [] {
    } else {
      var rest := dts[1..];
      assert forall i | 0 <= i < |rest| :: rest[i] == dts[i + 1];
      var u := NextShotTimer(t, dts[0]);
      if t == 0.0 {
        TimerStaysDown(u, rest);
        SumNonNegative(dts);
      } else if u > 0.0 {
        Cooldown(u, rest);
      } else {
        TimerStaysDown(u, rest);
        SumNonNegative(rest);
      }
    }
  }

  // ---------------------------------------------------------------------
  // The player.
  // ---------------------------------------------------------------------

  class Player {
    var state: int
    var acceleration: (int, int)
    var velocity: (real, real)
    /** The position of the sprite's top-left corner (all its animations move together). */
    var position: (real, real)
    /** The row of the walking animation: the last direction of motion. */
    var facing: int
    var aimDirection: real
    var aimShowing: bool
    var aimPosition: (real, real)
    var aimTickCount: int
    var shotTimer: real
    var shootButtonState: bool
    var rapidFire: bool

    /** What every frame keeps: aiming holds the acceleration at zero, each
        component of the acceleration and velocity stays within the top
        speed, the aim counter within one past 30, and the cursor shows
        exactly while aiming. */
    ghost predicate Valid()
      reads this
    {
      && Idle <= state <= AutoReload
      && (state == Aiming ==> acceleration == (0, 0))
      && IsAxisAcceleration(acceleration.0) && IsAxisAcceleration(acceleration.1)
      && -(AccelCoef as real) <= velocity.0 <= AccelCoef as real
      && -(AccelCoef as real) <= velocity.1 <= AccelCoef as real
      && 0 <= facing <= 7
      && -AimTickLimit - 1 <= aimTickCount <= AimTickLimit + 1
      && aimShowing == (state == Aiming)
    }

    constructor ()
      ensures Valid()
      ensures state == Idle && acceleration == (0, 0) && velocity == (0.0, 0.0)
      ensures position == (0.0, 0.0) && facing == 0
      ensures aimDirection == UpAngle && !aimShowing && aimPosition == (0.0, 0.0) && aimTickCount == 0
      ensures shotTimer == 0.0 && !shootButtonState && rapidFire
    {
      state := Idle;
      acceleration := (0, 0);
      velocity := (0.0, 0.0);
      position := (0.0, 0.0);
      facing := 0;
      aimDirection := UpAngle;
      aimShowing := false;
      aimPosition := (0.0, 0.0);
      aimTickCount := 0;
      shotTimer := 0.0;
      shootButtonState := false;
      rapidFire := true;
    }

    /** update: one frame with the given keys, lasting deltaTime seconds. */
    method Update(keys: Keys, deltaTime: real)
      requires Valid()
      modifies this
      ensures Valid()
      ensures state == NextState(old(state), old(velocity.0) == 0.0 && old(velocity.1) == 0.0, keys.aim)
      ensures Steerable(state) ==>
        acceleration == (AxisAcceleration(keys.left, keys.right), AxisAcceleration(keys.up, keys.down))
      ensures !Steerable(state) && state == old(state) ==> acceleration == old(acceleration)
      ensures velocity.0 == Drag(old(velocity).0, acceleration.0)
      ensures velocity.1 == Drag(old(velocity).1, acceleration.1)
      ensures facing == if ComputeDirection(velocity.0, velocity.1) == NoDirection then old(facing)
        else ComputeDirection(velocity.0, velocity.1)
      ensures position.0 == Advance(old(position).0, velocity.0, deltaTime)
      ensures position.1 == Advance(old(position).1, velocity.1, deltaTime)
      ensures state == Aiming ==> aimTickCount == NextAimCount(old(aimTickCount), keys.left, keys.right)
      ensures state == Aiming ==>
        aimDirection == Advance(old(aimDirection), AimRate(old(aimTickCount), keys.left, keys.right), deltaTime)
      ensures state != Aiming ==> aimTickCount == old(aimTickCount) && aimDirection == old(aimDirection)
      ensures aimPosition.0 == position.0 + MuzzleX && aimPosition.1 == position.1 + MuzzleY
      ensures shotTimer == NextShotTimer(old(shotTimer), deltaTime)
      ensures shootButtonState == old(shootButtonState) && rapidFire == old(rapidFire)
    {
      ChangeState(keys.aim);
      Steer(keys);
      Move(deltaTime);
      TurnAim(keys, deltaTime);
      PlaceCursor();
      RunDownShotTimer(deltaTime);
    }

    /** The aim cursor follows the sprite, at the muzzle's offset. */
    method PlaceCursor()
      modifies this`aimPosition
      ensures aimPosition.0 == position.0 + MuzzleX && aimPosition.1 == position.1 + MuzzleY
    {
      aimPosition := (position.0 + MuzzleX, position.1 + MuzzleY);
    }

    /** The last part of update: the shot timer runs down while positive
        and is clamped to zero otherwise. */
    method RunDownShotTimer(deltaTime: real)
      modifies this`shotTimer
      ensures shotTimer == NextShotTimer(old(shotTimer), deltaTime)
    {
      if shotTimer > 0.0 {
        shotTimer := shotTimer - deltaTime;
      } else {
        shotTimer := 0.0;
      }
    }

    /** The first part of update: idle and moving follow the velocity, and the
        aim key enters aiming (stopping the acceleration) or leaves it. */
    method ChangeState(aimHeld: bool)
      requires Valid()
      modifies this`state, this`acceleration
      ensures state == NextState(old(state), velocity.0 == 0.0 && velocity.1 == 0.0, aimHeld)
      ensures acceleration == if state == Aiming && old(state) != Aiming then (0, 0) else old(acceleration)
      ensures Idle <= state <= AutoReload
      ensures state == Aiming ==> acceleration == (0, 0)
      ensures IsAxisAcceleration(acceleration.0) && IsAxisAcceleration(acceleration.1)
    {
      var stopped := velocity.0 == 0.0 && velocity.1 == 0.0;
      if state == Idle {
        if !stopped {
          state := Moving;
        }
      } else if state == Moving {
        if stopped {
          state := Idle;
        }
      }
      if (state == Idle || state == Moving) && aimHeld {
        acceleration := (0, 0);
        state := Aiming;
      }
      if state == Aiming && !aimHeld {
        state := Idle;
      }
    }

    /** The direction keys set the acceleration, in the states that read them. */
    method Steer(keys: Keys)
      requires state == Aiming ==> acceleration == (0, 0)
      requires IsAxisAcceleration(acceleration.0) && IsAxisAcceleration(acceleration.1)
      modifies this`acceleration
      ensures state == Aiming ==> acceleration == (0, 0)
      ensures IsAxisAcceleration(acceleration.0) && IsAxisAcceleration(acceleration.1)
      ensures Steerable(state) ==>
        acceleration == (AxisAcceleration(keys.left, keys.right), AxisAcceleration(keys.up, keys.down))
      ensures !Steerable(state) ==> acceleration == old(acceleration)
    {
      if state == Idle || state == Moving || state == Running || state == AutoReload {
        var ay, ax;
        if keys.up {
          if !keys.down {
            ay := -AccelCoef;
          } else {
            ay := 0;
          }
        } else if keys.down {
          ay := AccelCoef;
        } else {
          ay := 0;
        }
        if keys.left {
          if !keys.right {
            ax := -AccelCoef;
          } else {
            ax := 0;
          }
        } else if keys.right {
          ax := AccelCoef;
        } else {
          ax := 0;
        }
        acceleration := (ax, ay);
      }
    }

    /** Drag the velocity, face along it when it is not zero, and move by it. */
    method Move(deltaTime: real)
      requires -(AccelCoef as real) <= velocity.0 <= AccelCoef as real
      requires -(AccelCoef as real) <= velocity.1 <= AccelCoef as real
      requires IsAxisAcceleration(acceleration.0) && IsAxisAcceleration(acceleration.1)
      requires 0 <= facing <= 7
      modifies this`velocity, this`facing, this`position
      ensures -(AccelCoef as real) <= velocity.0 <= AccelCoef as real
      ensures -(AccelCoef as real) <= velocity.1 <= AccelCoef as real
      ensures 0 <= facing <= 7
      ensures velocity.0 == Drag(old(velocity).0, acceleration.0)
      ensures velocity.1 == Drag(old(velocity).1, acceleration.1)
      ensures facing == if ComputeDirection(velocity.0, velocity.1) == NoDirection then old(facing)
        else ComputeDirection(velocity.0, velocity.1)
      ensures position.0 == Advance(old(position).0, velocity.0, deltaTime)
      ensures position.1 == Advance(old(position).1, velocity.1, deltaTime)
    {
      velocity := (Drag(velocity.0, acceleration.0), Drag(velocity.1, acceleration.1));
      var direction := ComputeDirection(velocity.0, velocity.1);
      if direction > NoDirection {
        facing := direction;
      }
      position := (Advance(position.0, velocity.0, deltaTime), Advance(position.1, velocity.1, deltaTime));
    }

    /** While aiming, show the cursor and turn it with LEFT and RIGHT, faster
        the longer one of them is held; otherwise hide it. */
    method TurnAim(keys: Keys, deltaTime: real)
      requires -AimTickLimit - 1 <= aimTickCount <= AimTickLimit + 1
      modifies this`aimShowing, this`aimTickCount, this`aimDirection
      ensures aimShowing == (state == Aiming)
      ensures -AimTickLimit - 1 <= aimTickCount <= AimTickLimit + 1
      ensures state == Aiming ==> aimTickCount == NextAimCount(old(aimTickCount), keys.left, keys.right)
      ensures state == Aiming ==>
        aimDirection == Advance(old(aimDirection), AimRate(old(aimTickCount), keys.left, keys.right), deltaTime)
      ensures state != Aiming ==> aimTickCount == old(aimTickCount) && aimDirection == old(aimDirection)
    {
      if state == Aiming {
        aimShowing := true;
        if keys.left {
          if !keys.right {
            if aimTickCount > 0 {
              aimTickCount := 0;
            }
            aimDirection := aimDirection + (40.0 - aimTickCount as real * 15.0) * deltaTime;
            if aimTickCount >= -AimTickLimit {
              aimTickCount := aimTickCount - 1;
            }
          } else {
            aimTickCount := 0;
          }
        } else if keys.right {
          if aimTickCount < 0 {
            aimTickCount := 0;
          }
          aimDirection := aimDirection + (-40.0 - aimTickCount as real * 15.0) * deltaTime;
          if aimTickCount <= AimTickLimit {
            aimTickCount := aimTickCount + 1;
          }
        } else {
          aimTickCount := 0;
        }
      } else {
        aimShowing := false;
      }
    }

    /** moveto: place the sprite, and the aim cursor with it. */
    method MoveTo(x: real, y: real)
      modifies this`position, this`aimPosition
      ensures position == (x, y)
      ensures aimPosition == (x + MuzzleX, y + MuzzleY)
    {
      position := (x, y);
      aimPosition := (position.0 + MuzzleX, position.1 + MuzzleY);
    }

    /** shoot_ifbuttonpressed: with the fire button in the given state, fire
        a bullet from the muzzle, along the aim when aiming and straight up
        otherwise, if the gating allows it; firing restarts the shot timer. */
    method ShootIfButtonPressed(controller: BulletController, fireDown: bool)
      requires controller.Valid()
      modifies this`shotTimer, this`shootButtonState, controller`playerBullets
      ensures controller.Valid()
      ensures controller.enemyBullets == old(controller.enemyBullets)
      ensures var fired := Fires(old(shotTimer) > 0.0, fireDown, rapidFire, old(shootButtonState));
        && |controller.playerBullets| == |old(controller.playerBullets)| + (if fired then 1 else 0)
        && controller.playerBullets[..|old(controller.playerBullets)|] == old(controller.playerBullets)
        && shotTimer == (if fired then ShotInterval else old(shotTimer))
      ensures Fires(old(shotTimer) > 0.0, fireDown, rapidFire, old(shootButtonState)) ==>
        var b := controller.playerBullets[|old(controller.playerBullets)|];
        && fresh(b) && !b.isEnemy
        && b.origin == (position.0 + MuzzleX, position.1 + MuzzleY)
        && b.direction == (if state == Aiming then aimDirection else UpAngle)
        && b.speed == GunSpeed && b.damage == GunDamage
      ensures shootButtonState == StoredAfter(old(shotTimer) > 0.0, fireDown, old(shootButtonState))
    {
      if shotTimer > 0.0 {
        return;
      }
      var angle := if state == Aiming then aimDirection else UpAngle;
      if fireDown && (rapidFire || !shootButtonState) {
        controller.PlayerShoot((position.0 + MuzzleX, position.1 + MuzzleY), angle, GunSpeed, GunDamage);
        shotTimer := ShotInterval;
      }
      shootButtonState := fireDown;
    }
  }
}

=== FILE: wrappers.dfy ===
/** Failure-carrying results shared by the modules of this model: an error
    that the game raises as a Python exception is returned as a value. */
module Wrappers {

  datatype Option<+T> = None | Some(value: T)

  datatype Result<+T, +E> = Success(value: T) | Failure(error: E)

  /** The outcome of an operation that returns nothing but may raise. */
  datatype Outcome<+E> = Pass | Fail(error: E)
}
